=== FILE: README.md ===
# Simple bank ledger, modelled in Dafny

A model of the ledger core of a small command-line banking program
(`Main.py`): the `BankAccount` class, which keeps a balance and an
append-only transaction history, and the `SimpleBankSystem` class, which
keeps the accounts in a dictionary keyed by account number, allocates new
numbers, opens and deletes accounts, and turns the whole collection into
its persisted records and back.

Everything is pure. Accounts and history records are immutable datatypes,
and the ledger is a `map<string, Account>`. The operations that can be
refused (`Deposit`, `Withdraw`, `CreateAccount`, `DeleteAccount` and
`Transfer`) return an `Outcome(status, state)`. The status is `Done` when the
call went through. Otherwise it names the guard that refused it, and `state`
is then the untouched input. This stands for the source's `True`/`False` (or
`None`) return plus in-place mutation. The rest (`NewAccount`, `Debit`,
`Credit`, `FindAccount`, `SaveData`, `LoadData`) always go through and return
their result directly. `GenerateAccountNumber` returns an `Option` whose
`None` stands for the `ValueError` raised on a key that is not a numeral.

Modules:

- `Results`: `Option`, the refusal kinds, `Outcome`.
- `AccountNumbers`: account numbers as decimal numerals. It has `int(...)`
  and `str(...)` for them, the seed `"100001"`, and the proof that a
  rendered number reads back as itself.
- `BankAccount`: records, accounts, the constructor, `add_transaction`,
  `deposit`, `withdraw`, the two legs of `transfer`, and `to_dict`/`from_dict`.
  It also holds the account invariant `Valid`: the history opens with the
  "created" record, every record's balance is its predecessor's balance
  moved by the record's effect (`Delta`), the last record's balance is the
  account balance, and the balance is not negative.
- `BankSystem`: the ledger and its invariant `WellFormed` (numeral keys,
  each key equal to its account's number, every account `Valid`). It holds
  `generate_account_number`, `create_account`, `find_account`,
  `delete_account`, `transfer` applied to two ledger entries, and the
  map-building parts of `save_data`/`load_data`.

Modelling choices:

- Amounts are `real`: exact decimals in place of Python floats.
- A clock reading is `Instant(second, micro)`. Each record's clock reading
  is a parameter of the operation that stamps it: `now`, or `sent` and
  `received` for the two records of a transfer. The fixed-format
  `strftime`/`strptime` pair becomes "keep the whole seconds" (`Format`) and
  "whole seconds, zero micro" (`Parse`).
- A record's `type` text is the structured `TxnKind` (`Created`,
  `Deposited`, `Withdrawal`, `TransferOut(peer)`, `TransferIn(peer)`). `Label` gives the
  source's Indonesian text for each kind, and `LabelInjective` shows that no
  information is lost.
- `Format`, `Label`, `Delta`, `Last` and `Replay` are supporting
  definitions without contracts of their own. The properties about them are
  stated by `Parse`, `LabelInjective`, `ReplayAudited` and
  `BalanceIsReplay`.
- Recorded signs follow the code. A withdrawal is recorded with the positive
  amount taken out (Main.py:46). An outgoing transfer is recorded with a
  negative amount (Main.py:61). `Delta` reads each record accordingly.
- `transfer` is modelled on two ledger entries. Each leg's record is
  stamped from its own clock reading, as `add_transaction` reads the clock
  separately for the payer (Main.py:61) and the payee (Main.py:65). The
  payer is debited and written back, then the payee is read from the updated ledger and credited.
  So a transfer from an account to itself, which the core does not forbid
  (the check is only in the menu, Main.py:306), records both legs on that
  one account, with a net change of zero (`TransferToSelf`).
- `from_dict` runs the constructor, which appends a "created" record, and
  then overwrites the whole history. The model does the same, and
  `FromRecordIgnoresClock` shows that nothing of the constructor's record
  survives.

Three behaviours of Main.py worth noting:

- A withdrawal record carries `+amount` (Main.py:46), while an outgoing
  transfer record carries `-amount` (Main.py:61).
- `delete_account` refuses only a balance above zero (Main.py:157), so an
  account with a negative balance could be deleted.
- `create_account` accepts an empty holder name (Main.py:131-144). Only the
  menu rejects it (Main.py:237).

## Model

| member | source | states |
|---|---|---|
| AccountNumbers.ParseNumber | Main.py:128 | `int(k)` succeeds exactly on non-empty digit strings; every other key is the error path |
| AccountNumbers.NumberToString | Main.py:129 | `str(n)` of a non-negative number is a non-empty digit string without a leading zero |
| AccountNumbers.NumberRoundTrip | Main.py:128-129 | reading back the rendered number gives the number: `int(str(n)) == n` |
| AccountNumbers.NumberToStringInjective | Main.py:129 | different numbers render to different strings |
| AccountNumbers.SeedValue | Main.py:124-125 | the seed "100001" is the numeral of 100001 |
| AccountNumbers.SuccessorIsFresh | Main.py:127-129 | one more than the largest key value renders to a numeral above every key, hence not a key |
| BankAccount.Parse | Main.py:112 | parsing a stored timestamp gives an instant with no sub-second part that formats back to the same text |
| BankAccount.LabelInjective | Main.py:13-65 | the five record labels ("Akun dibuat", "Deposit", "Penarikan", "Transfer ke N", "Transfer dari N") never coincide for different kinds or peers |
| BankAccount.ReplayAudited | Main.py:15-23 | in a reconciled history, summing every record's effect from zero gives the last recorded balance |
| BankAccount.BalanceIsReplay | Main.py:13-65 | a valid account's balance is the sum of the effects of its whole history |
| BankAccount.Record | Main.py:15-23 | `add_transaction` appends exactly one record stamped with the clock and leaves every other field alone |
| BankAccount.NewAccount | Main.py:7-13 | a new account has the given number, holder and balance, and a one-record history whose "created" record carries the opening balance as amount and balance; it is valid when the opening balance is not negative |
| BankAccount.Deposit | Main.py:25-33 | refused (nothing changes) iff amount <= 0; otherwise the balance grows by amount and exactly one deposit record with the new balance is appended; validity is kept |
| BankAccount.Withdraw | Main.py:35-47 | refused (nothing changes) for amount <= 0 or above the balance, each with its own reason; otherwise the balance drops by amount and stays >= 0, and one withdrawal record carrying +amount is appended; validity is kept |
| BankAccount.Debit | Main.py:59-61 | the paying leg takes amount off, appends one record with -amount naming the payee, and keeps validity when amount <= balance |
| BankAccount.Credit | Main.py:63-65 | the receiving leg adds amount, appends one record with +amount naming the payer, and keeps validity for a non-negative amount |
| BankAccount.DepositThenWithdraw | Main.py:25-47 | withdrawing what was just deposited goes through and restores the balance, with two more records |
| BankAccount.ToRecord | Main.py:97-105 | the persisted record carries the number, holder, balance and history, and the creation time to the second |
| BankAccount.FromRecord | Main.py:107-113 | the rebuilt account takes number, holder, balance and the whole history from the record; the constructor's own "created" record does not survive |
| BankAccount.FromRecordIgnoresClock | Main.py:110-112 | the clock reading taken inside `from_dict` has no effect on the result |
| BankAccount.RecordRoundTrip | Main.py:97-113 | `from_dict(to_dict(a))` equals `a` except for the sub-second part of the creation time; the record round-trips exactly and validity survives |
| BankSystem.GenerateAccountNumber | Main.py:122-129 | "100001" on an empty ledger; otherwise the error path iff some key is not a numeral, else `str(max + 1)` for the largest key value, which is above every key and not a key |
| BankSystem.CreateAccount | Main.py:131-144 | refused (ledger unchanged, no account) iff the first deposit is negative or a key is not a numeral; otherwise exactly one key is added: "100001" on an empty ledger, else `str(max + 1)` for the largest key value, which is above every key; it holds the new account that is returned, and all other entries are untouched; the ledger invariant is kept |
| BankSystem.FindAccount | Main.py:146-148 | the account under the number if present, nothing otherwise; in a well-formed ledger it carries that number and is valid |
| BankSystem.DeleteAccount | Main.py:150-164 | refused (ledger unchanged) for a missing number or a balance above zero; otherwise exactly that key is removed and every other entry is untouched; the ledger invariant is kept |
| BankSystem.Transfer | Main.py:49-67 | refused (ledger unchanged) for a missing account, amount <= 0, or amount above the payer's balance, each with its own reason; on success the same keys remain, only the two entries change, and the ledger invariant is kept |
| BankSystem.TransferBetweenTwo | Main.py:49-67 | between two different accounts the total of the two balances is conserved, the payer stays >= 0, and each side gains one record naming the other's number, stamped with that leg's own clock reading |
| BankSystem.TransferToSelf | Main.py:49-67 | a self-transfer leaves the balance as it was and appends the outgoing then the incoming record |
| BankSystem.DeleteUndoesOpening | Main.py:131-164 | deleting an account just opened with zero gives back the original ledger; one opened with money cannot be deleted |
| BankSystem.SaveData | Main.py:183-187 | the saved document has exactly the ledger's keys, each holding its account's number, holder, balance, history and creation time to the second |
| BankSystem.LoadData | Main.py:192-202 | loading adds one rebuilt account per stored key, with the stored number, holder, balance and history, and the stored creation second with zero sub-second part, and leaves entries under other keys alone |
| BankSystem.AliceAndBobSession | Main.py:25-67 | opening with 1000 and depositing 500 gives 1500 with two records; withdrawing 2000 is refused with nothing changed; paying 1000 to a new zero-balance account leaves 500 and 1000, with three and two records |
| BankSystem.SaveLoadRoundTrip | Main.py:183-202 | save then load into an empty ledger gives the same keys and accounts, up to sub-second creation time; re-saving writes the same document; well-formedness survives |

## Left out

- The menu, `display_menu`, `main` and all `input`/`print` calls (Main.py:207-375): interactive front end. The menu's own checks (empty name, self-transfer) are not part of the core.
- `get_account_info`, `get_transaction_history`, `list_all_accounts` (Main.py:69-95, 166-181): currency and table formatting only.
- File I/O in `save_data`/`load_data`: `open`, `json.dump`/`json.load`, `os.path.exists`, and the catch-all handler that keeps a partly loaded ledger. These are foreign calls. Only the map-to-records conversion is modelled, over typed records, so a record with a missing field cannot arise.
- Calendar text of timestamps. A stored timestamp is its whole-second value, and the `"%Y-%m-%d %H:%M:%S"` rendering is not modelled.
- NewAccount: the constructor reads the clock twice (Main.py:12 and Main.py:18); the model uses one reading for both.
- Float rounding of balances: amounts are exact `real`s.
- Non-finite floats: the menu's `float(...)` accepts "nan" and "inf" (Main.py:242, 260, 280, 311), and `real` has neither. Every comparison with NaN is false, so in Python a NaN amount passes the guards of `deposit`, `withdraw` and `transfer` (Main.py:27, 37-41, 51-55) and `create_account` (Main.py:133), and the balance becomes NaN. An account with a NaN balance also passes the deletion guard (Main.py:157), and depositing then withdrawing `inf` leaves NaN. The model's acceptance conditions and its "never negative" invariant hold only for finite amounts.
- Default arguments: `initial_balance = 0.0` and `initial_deposit = 0.0` (Main.py:7, 131) are explicit parameters of `NewAccount` and `CreateAccount`.
- ParseNumber: Python's `int` also accepts surrounding whitespace, a sign, underscores and non-ASCII digits; the model treats all of these as the error path. Keys are produced by `generate_account_number` and are plain numerals.
- Transfer: `BankAccount.transfer` receives two account objects, so the missing-account refusal stands for the menu's two lookups before the call (Main.py:292-304).
- Deposit and withdrawal through the ledger: the menu looks up the account and calls `deposit`/`withdraw` on it. The model has no ledger-level wrapper; a caller applies `Deposit`/`Withdraw` to the result of `FindAccount` and stores the new account back, and the account-level `Valid` preservation carries the ledger invariant.
- Insertion order of the accounts: Python's dictionary keeps it through `save_data`/`load_data` (Main.py:186, 201-202) and `list_all_accounts` shows it (Main.py:177). A Dafny `map` has no order. No modelled operation depends on it, since allocation takes the maximum.
- Saving after each mutation (Main.py:140, 162): the call has no effect on the in-memory state.

=== FILE: account_numbers.dfy ===
/** Account numbers: decimal numerals stored as strings.

    The ledger keys its accounts by these strings but compares them as
    integers when it allocates the next number (`int(...)` and `str(...)` in
    `SimpleBankSystem.generate_account_number`). This module gives both
    directions of that conversion and proves that rendering a number and
    reading it back gives the number again, which is what makes freshly
    allocated numbers distinct from every existing key. */
module AccountNumbers {
  import opened Results

  /** The number handed out when the ledger holds no account yet. */
  const Seed: string := "100001"

  predicate IsDigit(c: char) {
    '0' <= c <= '9'
  }

  predicate AllDigits(s: string) {
    forall i :: 0 <= i < |s| ==> IsDigit(s[i])
  }

  /** A non-empty string of ASCII decimal digits. */
  predicate IsNumeral(s: string) {
    |s| > 0 && AllDigits(s)
  }

  function DigitValue(c: char): (d: nat)
    requires IsDigit(c)
    ensures d < 10
  {
    c as int - '0' as int
  }

  function DigitChar(d: nat): (c: char)
    requires d < 10
    ensures IsDigit(c) && DigitValue(c) == d
  {
    ('0' as int + d) as char
  }

  /** Value of a digit string, most significant digit first. */
  function NumeralValue(s: string): nat
    requires AllDigits(s)
    decreases |s|
  {
    if s == [] then 0
    else NumeralValue(s[..|s| - 1]) * 10 + DigitValue(s[|s| - 1])
  }

  /** `int(s)` for the strings the ledger uses as keys; `None` stands for
      the `ValueError` Python raises on anything that is not a numeral. */
  function ParseNumber(s: string): (r: Option<nat>)
    ensures r.Some? <==> IsNumeral(s)
  {
    if IsNumeral(s) then Some(NumeralValue(s)) else None
  }

  /** `str(n)` for a non-negative integer: decimal, no leading zeros. */
  function NumberToString(n: nat): (s: string)
    ensures IsNumeral(s)
    ensures |s| > 1 ==> s[0] != '0'
    decreases n
  {
    if n < 10 then [DigitChar(n)]
    else NumberToString(n / 10) + [DigitChar(n % 10)]
  }

  /** Reading back a rendered number gives the number. */
  lemma {:induction false} NumberRoundTrip(n: nat)
    ensures ParseNumber(NumberToString(n)) == Some(n)
    decreases n
  {
    var s := NumberToString(n);
    if n < 10 {
      assert s[..|s| - 1] == [];
      assert NumeralValue(s) == DigitValue(DigitChar(n)) == n;
    } else {
      NumberRoundTrip(n / 10);
      var prefix := NumberToString(n / 10);
      assert s[..|s| - 1] == prefix;
      assert NumeralValue(s) == NumeralValue(prefix) * 10 + n % 10;
    }
  }

  /** Two different numbers never render to the same string. */
  lemma NumberToStringInjective(m: nat, n: nat)
    ensures NumberToString(m) == NumberToString(n) ==> m == n
  {
    NumberRoundTrip(m);
    NumberRoundTrip(n);
  }

  /** The seed is the numeral of 100001. */
  lemma SeedValue()
    ensures ParseNumber(Seed) == Some(100001)
  {
    assert IsNumeral(Seed);
    assert NumeralValue(Seed[..1]) == 1 by { assert Seed[..1][..0] == []; }
    assert NumeralValue(Seed[..2]) == 10 by { assert Seed[..2][..1] == Seed[..1]; }
    assert NumeralValue(Seed[..3]) == 100 by { assert Seed[..3][..2] == Seed[..2]; }
    assert NumeralValue(Seed[..4]) == 1000 by { assert Seed[..4][..3] == Seed[..3]; }
    assert NumeralValue(Seed[..5]) == 10000 by { assert Seed[..5][..4] == Seed[..4]; }
    assert Seed[..|Seed| - 1] == Seed[..5];
  }

  /** `m` is the largest value among the numerals in `keys`, all of which are numerals. */
  ghost predicate IsMaxNumber(keys: set<string>, m: nat) {
    && (exists k :: k in keys && ParseNumber(k) == Some(m))
    && (forall k :: k in keys ==> ParseNumber(k).Some? && ParseNumber(k).value <= m)
  }

  /** `n` is a numeral whose value is strictly above the value of every key. */
  ghost predicate Above(n: string, keys: set<string>) {
    && ParseNumber(n).Some?
    && (forall k :: k in keys ==> ParseNumber(k).Some? && ParseNumber(k).value < ParseNumber(n).value)
  }

  /** The successor of the largest key is above every key, so it is not a key. */
  lemma SuccessorIsFresh(keys: set<string>, m: nat)
    requires IsMaxNumber(keys, m)
    ensures Above(NumberToString(m + 1), keys)
    ensures NumberToString(m + 1) !in keys
  {
    NumberRoundTrip(m + 1);
  }
}

=== FILE: bank_account.dfy ===
/** One holder's account: a balance and the history of every change to it
    (`BankAccount` in Main.py).

    Every operation that moves money guards on the amount and the balance
    first and, when it goes through, changes the balance and appends exactly
    one history record carrying the new balance. The invariant `Valid` says
    what that discipline buys: the history starts with the "created" record,
    each record's balance is the previous one moved by the record's effect,
    the last record's balance is the account's balance, and the balance is
    never negative. */
module BankAccount {
  import opened Results

  /** A clock reading, with the sub-second part `datetime.now()` carries. */
  datatype Instant = Instant(second: int, micro: int)

  /** A timestamp as written by `strftime("%Y-%m-%d %H:%M:%S")`: whole
      seconds. The calendar text itself is not modelled. */
  type Stamp = int

  /** `strftime` with the fixed format: drops the sub-second part. */
  function Format(t: Instant): Stamp {
    t.second
  }

  /** `strptime` with the fixed format. */
  function Parse(s: Stamp): (t: Instant)
    ensures Format(t) == s && t.micro == 0
  {
    Instant(s, 0)
  }

  /** The kind of a history record. Its persisted label is `Label(kind)`. */
  datatype TxnKind =
    | Created
    | Deposited
    | Withdrawal
    | TransferOut(peer: string)
    | TransferIn(peer: string)

  /** One history record, as stored: the `date`, `type`, `amount` and
      `balance` fields of the source's transaction dictionary. */
  datatype Txn = Txn(date: Stamp, kind: TxnKind, amount: real, balance: real)

  datatype Account = Account(
    number: string,
    holder: string,
    balance: real,
    history: seq<Txn>,
    createdAt: Instant)

  /** The persisted form of an account (`to_dict`). */
  datatype AccountRecord = AccountRecord(
    accountNumber: string,
    accountHolder: string,
    balance: real,
    transactionHistory: seq<Txn>,
    createdAt: Stamp)

  /** The `type` text the source writes for each kind of record. */
  function Label(k: TxnKind): string {
    match k
    case Created => "Akun dibuat"
    case Deposited => "Deposit"
    case Withdrawal => "Penarikan"
    case TransferOut(p) => "Transfer ke " + p
    case TransferIn(p) => "Transfer dari " + p
  }

  /** Different kinds of record never share a label, so the structured kind
      loses nothing against the source's free-text `type` field. */
  lemma LabelInjective(j: TxnKind, k: TxnKind)
    ensures Label(j) == Label(k) ==> j == k
  {
    if Label(j) == Label(k) {
      var s := Label(j);
      if j.TransferOut? || j.TransferIn? {
        assert s[0] == 'T';
        assert k.TransferOut? || k.TransferIn?;
        assert (s[9] == 'k') == j.TransferOut?;
        assert (s[9] == 'k') == k.TransferOut?;
        if j.TransferOut? {
          assert j.peer == s[12..] == k.peer;
        } else {
          assert j.peer == s[14..] == k.peer;
        }
      } else {
        assert s[0] == Label(k)[0];
      }
    }
  }

  /** The change to the balance that a record stands for. Withdrawals are
      recorded with the positive amount taken out (Main.py:46), while
      outgoing transfers are recorded with a negative amount (Main.py:61). */
  function Delta(t: Txn): real {
    match t.kind
    case Created => t.amount
    case Deposited => t.amount
    case Withdrawal => -t.amount
    case TransferOut(_) => t.amount
    case TransferIn(_) => t.amount
  }

  function Last(h: seq<Txn>): Txn
    requires |h| > 0
  {
    h[|h| - 1]
  }

  /** The balance obtained by applying every record's effect, starting from zero. */
  function Replay(h: seq<Txn>): real
    decreases |h|
  {
    if h == [] then 0.0 else Replay(h[..|h| - 1]) + Delta(Last(h))
  }

  /** The history reconciles: it opens with the "created" record holding the
      opening balance, and every later record's balance is its predecessor's
      balance moved by the record's own effect. */
  predicate Audited(h: seq<Txn>) {
    && |h| > 0
    && h[0].kind == Created
    && h[0].balance == Delta(h[0])
    && (forall i :: 0 < i < |h| ==> h[i].balance == h[i - 1].balance + Delta(h[i]))
  }

  /** The account invariant. */
  predicate Valid(a: Account) {
    && Audited(a.history)
    && Last(a.history).balance == a.balance
    && a.balance >= 0.0
  }

  /** Replaying a reconciled history reproduces its last recorded balance. */
  lemma {:induction false} ReplayAudited(h: seq<Txn>)
    requires Audited(h)
    ensures Replay(h) == Last(h).balance
    decreases |h|
  {
    if |h| == 1 {
      assert h[..0] == [];
    } else {
      var p := h[..|h| - 1];
      assert Audited(p);
      ReplayAudited(p);
    }
  }

  /** The balance of a valid account is the sum of the effects of its history. */
  lemma BalanceIsReplay(a: Account)
    requires Valid(a)
    ensures Replay(a.history) == a.balance
  {
    ReplayAudited(a.history);
  }

  /** `add_transaction`: append one record stamped with the clock reading. */
  function Record(a: Account, kind: TxnKind, amount: real, newBalance: real, now: Instant): (b: Account)
    ensures b.number == a.number && b.holder == a.holder && b.createdAt == a.createdAt
    ensures b.balance == a.balance
    ensures |b.history| == |a.history| + 1 && a.history <= b.history
    ensures Last(b.history) == Txn(Format(now), kind, amount, newBalance)
  {
    a.(history := a.history + [Txn(Format(now), kind, amount, newBalance)])
  }

  /** The constructor: the history is seeded with one "created" record that
      carries the opening balance both as amount and as balance. */
  function NewAccount(number: string, holder: string, initial: real, now: Instant): (a: Account)
    ensures a.number == number && a.holder == holder && a.createdAt == now
    ensures a.balance == initial
    ensures a.history == [Txn(Format(now), Created, initial, initial)]
    ensures initial >= 0.0 ==> Valid(a)
  {
    Record(Account(number, holder, initial, [], now), Created, initial, initial, now)
  }

  /** `deposit`: refuses a non-positive amount, otherwise adds it. */
  function Deposit(a: Account, amount: real, now: Instant): (r: Outcome<Account>)
    ensures r.status == Done || r.status == InvalidAmount
    ensures r.Ok() <==> amount > 0.0
    ensures !r.Ok() ==> r.state == a
    ensures r.Ok() ==> r.state.balance == a.balance + amount
    ensures r.Ok() ==> |r.state.history| == |a.history| + 1 && a.history <= r.state.history
    ensures r.Ok() ==> Last(r.state.history) == Txn(Format(now), Deposited, amount, r.state.balance)
    ensures r.state.number == a.number && r.state.holder == a.holder && r.state.createdAt == a.createdAt
    ensures Valid(a) ==> Valid(r.state)
  {
    if amount <= 0.0 then
      Outcome(InvalidAmount, a)
    else
      var balance := a.balance + amount;
      Outcome(Done, Record(a.(balance := balance), Deposited, amount, balance, now))
  }

  /** `withdraw`: refuses a non-positive amount and an amount above the
      balance, otherwise takes it out. The record carries the positive
      amount withdrawn. */
  function Withdraw(a: Account, amount: real, now: Instant): (r: Outcome<Account>)
    ensures r.status == InvalidAmount <==> amount <= 0.0
    ensures r.status == InsufficientFunds <==> 0.0 < amount && a.balance < amount
    ensures r.Ok() <==> 0.0 < amount <= a.balance
    ensures !r.Ok() ==> r.state == a
    ensures r.Ok() ==> r.state.balance == a.balance - amount && r.state.balance >= 0.0
    ensures r.Ok() ==> |r.state.history| == |a.history| + 1 && a.history <= r.state.history
    ensures r.Ok() ==> Last(r.state.history) == Txn(Format(now), Withdrawal, amount, r.state.balance)
    ensures r.state.number == a.number && r.state.holder == a.holder && r.state.createdAt == a.createdAt
    ensures Valid(a) ==> Valid(r.state)
  {
    if amount <= 0.0 then
      Outcome(InvalidAmount, a)
    else if amount > a.balance then
      Outcome(InsufficientFunds, a)
    else
      var balance := a.balance - amount;
      Outcome(Done, Record(a.(balance := balance), Withdrawal, amount, balance, now))
  }

  /** The paying leg of `transfer`, applied after its guards: the amount
      leaves the account and is recorded as negative, naming the payee. */
  function Debit(a: Account, payee: string, amount: real, now: Instant): (b: Account)
    ensures b.balance == a.balance - amount
    ensures |b.history| == |a.history| + 1 && a.history <= b.history
    ensures Last(b.history) == Txn(Format(now), TransferOut(payee), -amount, b.balance)
    ensures b.number == a.number && b.holder == a.holder && b.createdAt == a.createdAt
    ensures Valid(a) && amount <= a.balance ==> Valid(b)
  {
    var balance := a.balance - amount;
    Record(a.(balance := balance), TransferOut(payee), -amount, balance, now)
  }

  /** The receiving leg of `transfer`: the amount arrives and is recorded as
      positive, naming the payer. */
  function Credit(a: Account, payer: string, amount: real, now: Instant): (b: Account)
    ensures b.balance == a.balance + amount
    ensures |b.history| == |a.history| + 1 && a.history <= b.history
    ensures Last(b.history) == Txn(Format(now), TransferIn(payer), amount, b.balance)
    ensures b.number == a.number && b.holder == a.holder && b.createdAt == a.createdAt
    ensures Valid(a) && amount >= 0.0 ==> Valid(b)
  {
    var balance := a.balance + amount;
    Record(a.(balance := balance), TransferIn(payer), amount, balance, now)
  }

  /** A deposit followed by the withdrawal of the same amount goes through
      and restores the balance, leaving two more records. */
  lemma DepositThenWithdraw(a: Account, amount: real, t1: Instant, t2: Instant)
    requires Valid(a) && amount > 0.0
    ensures Withdraw(Deposit(a, amount, t1).state, amount, t2).Ok()
    ensures Withdraw(Deposit(a, amount, t1).state, amount, t2).state.balance == a.balance
    ensures |Withdraw(Deposit(a, amount, t1).state, amount, t2).state.history| == |a.history| + 2
  {
  }

  /** `to_dict`: the persisted record of an account. */
  function ToRecord(a: Account): (d: AccountRecord)
    ensures d.accountNumber == a.number && d.accountHolder == a.holder
    ensures d.balance == a.balance && d.transactionHistory == a.history
    ensures Parse(d.createdAt) == a.createdAt.(micro := 0)
  {
    AccountRecord(a.number, a.holder, a.balance, a.history, Format(a.createdAt))
  }

  /** `from_dict`: runs the constructor (which appends a "created" record
      stamped with the current clock), then overwrites the whole history and
      the creation time with the stored ones. Nothing from the constructor's
      own record survives, so the clock reading does not matter. */
  function FromRecord(d: AccountRecord, now: Instant): (a: Account)
    ensures a.number == d.accountNumber && a.holder == d.accountHolder && a.balance == d.balance
    ensures a.history == d.transactionHistory
    ensures Format(a.createdAt) == d.createdAt && a.createdAt.micro == 0
  {
    var built := NewAccount(d.accountNumber, d.accountHolder, d.balance, now);
    built.(history := d.transactionHistory, createdAt := Parse(d.createdAt))
  }

  /** The clock reading taken by the constructor inside `from_dict` leaves no trace. */
  lemma FromRecordIgnoresClock(d: AccountRecord, t1: Instant, t2: Instant)
    ensures FromRecord(d, t1) == FromRecord(d, t2)
  {
  }

  /** Saving and reloading an account keeps its number, holder, balance and
      history, and its creation time to the second; the persisted record is
      reproduced exactly, and validity survives. */
  lemma RecordRoundTrip(a: Account, now: Instant)
    ensures FromRecord(ToRecord(a), now) == a.(createdAt := a.createdAt.(micro := 0))
    ensures ToRecord(FromRecord(ToRecord(a), now)) == ToRecord(a)
    ensures Valid(a) ==> Valid(FromRecord(ToRecord(a), now))
  {
  }
}

=== FILE: bank_system.dfy ===
/** The ledger (`SimpleBankSystem` in Main.py): accounts keyed by their
    number, account-number allocation, opening, lookup, deletion, transfers
    between two entries, and the conversion of the whole collection to and
    from its persisted records.

    `WellFormed` is the ledger invariant: every key is a numeral, every key
    is the number of the account stored under it, and every account is
    `Valid`. Each operation below keeps it. */
module BankSystem {
  import opened Results
  import opened AccountNumbers
  import opened BankAccount

  type Ledger = map<string, Account>

  /** The persisted document's `accounts` collection. */
  type Records = map<string, AccountRecord>

  predicate WellFormed(l: Ledger) {
    forall k :: k in l ==> IsNumeral(k) && l[k].number == k && Valid(l[k])
  }

  /** `generate_account_number`: the seed for an empty ledger, otherwise
      one more than the largest key read as an integer. `None` stands for
      the `ValueError` raised when some key is not a numeral. */
  method GenerateAccountNumber(l: Ledger) returns (r: Option<string>)
    ensures l == map[] ==> r == Some(Seed)
    ensures r.None? <==> exists k :: k in l && ParseNumber(k).None?
    ensures r.Some? && l != map[] ==> exists m: nat :: IsMaxNumber(l.Keys, m) && r.value == NumberToString(m + 1)
    ensures r.Some? ==> Above(r.value, l.Keys) && r.value !in l
  {
    if l == map[] {
      SeedValue();
      return Some(Seed);
    }
    var todo := l.Keys;
    var max: nat := 0;
    while todo != {}
      invariant todo <= l.Keys
      invariant forall k :: k in l.Keys - todo ==> ParseNumber(k).Some? && ParseNumber(k).value <= max
      invariant l.Keys - todo == {} ==> max == 0
      invariant l.Keys - todo != {} ==> exists k :: k in l.Keys - todo && ParseNumber(k) == Some(max)
      decreases todo
    {
      var k :| k in todo;
      var v := ParseNumber(k);
      if v.None? {
        return None;
      }
      if v.value > max {
        max := v.value;
      } else if l.Keys - todo == {} {
        assert v == Some(max);
      }
      todo := todo - {k};
      assert k in l.Keys - todo;
    }
    assert IsMaxNumber(l.Keys, max);
    SuccessorIsFresh(l.Keys, max);
    r := Some(NumberToString(max + 1));
  }

  /** `create_account`: refuses a negative first deposit; otherwise
      allocates a number and stores a new account under it. The opened
      account is returned alongside the new ledger. */
  method CreateAccount(l: Ledger, holder: string, initial: real, now: Instant)
    returns (r: Outcome<Ledger>, created: Option<Account>)
    ensures r.status == NegativeInitialDeposit <==> initial < 0.0
    ensures r.status == MalformedAccountNumber <==> initial >= 0.0 && exists k :: k in l && !IsNumeral(k)
    ensures r.Ok() || r.status == NegativeInitialDeposit || r.status == MalformedAccountNumber
    ensures !r.Ok() ==> r.state == l && created == None
    ensures r.Ok() ==> created.Some? && created.value.number !in l
    ensures r.Ok() ==> Above(created.value.number, l.Keys)
    ensures r.Ok() && l == map[] ==> created.value.number == Seed
    ensures r.Ok() && l != map[] ==>
      exists m: nat :: IsMaxNumber(l.Keys, m) && created.value.number == NumberToString(m + 1)
    ensures r.Ok() ==> r.state.Keys == l.Keys + {created.value.number}
    ensures r.Ok() ==> r.state[created.value.number] == created.value
    ensures r.Ok() ==> created.value == NewAccount(created.value.number, holder, initial, now)
    ensures r.Ok() ==> forall k :: k in l ==> r.state[k] == l[k]
    ensures WellFormed(l) ==> r.Ok() || initial < 0.0
    ensures WellFormed(l) ==> WellFormed(r.state)
  {
    if initial < 0.0 {
      return Outcome(NegativeInitialDeposit, l), None;
    }
    var number := GenerateAccountNumber(l);
    if number.None? {
      return Outcome(MalformedAccountNumber, l), None;
    }
    var n := number.value;
    var account := NewAccount(n, holder, initial, now);
    r := Outcome(Done, l[n := account]);
    created := Some(account);
  }

  /** `find_account`: the account stored under `number`, if any. */
  function FindAccount(l: Ledger, number: string): (r: Option<Account>)
    ensures r.None? <==> number !in l
    ensures r.Some? ==> r.value == l[number]
    ensures WellFormed(l) && r.Some? ==> r.value.number == number && Valid(r.value)
  {
    if number in l then Some(l[number]) else None
  }

  /** `delete_account`: refuses a missing number and an account whose
      balance is above zero; otherwise removes that one entry. */
  function DeleteAccount(l: Ledger, number: string): (r: Outcome<Ledger>)
    ensures r.status == AccountNotFound <==> number !in l
    ensures r.status == PositiveBalance <==> number in l && l[number].balance > 0.0
    ensures r.Ok() <==> number in l && l[number].balance <= 0.0
    ensures !r.Ok() ==> r.state == l
    ensures r.Ok() ==> r.state.Keys == l.Keys - {number}
    ensures forall k :: k in r.state ==> k in l && r.state[k] == l[k]
    ensures WellFormed(l) ==> WellFormed(r.state)
  {
    if number !in l then
      Outcome(AccountNotFound, l)
    else if l[number].balance > 0.0 then
      Outcome(PositiveBalance, l)
    else
      Outcome(Done, l - {number})
  }

  /** `transfer` applied to the accounts stored under `from` and `to`.
      Both must be present; the amount must be positive and at most the
      payer's balance. The payer is debited and written back first, and the
      payee is then read from the updated ledger and credited, so a transfer
      from an account to itself records both legs on that one account.
      Each leg stamps its record with its own clock reading: `sent` for the
      payer's record and `received` for the payee's. */
  function Transfer(l: Ledger, from: string, to: string, amount: real, sent: Instant, received: Instant): (r: Outcome<Ledger>)
    ensures r.status == AccountNotFound <==> from !in l || to !in l
    ensures r.status == InvalidAmount <==> from in l && to in l && amount <= 0.0
    ensures r.status == InsufficientFunds <==> from in l && to in l && 0.0 < amount && l[from].balance < amount
    ensures r.Ok() <==> from in l && to in l && 0.0 < amount <= l[from].balance
    ensures !r.Ok() ==> r.state == l
    ensures r.Ok() ==> r.state.Keys == l.Keys
    ensures r.Ok() ==> forall k :: k in l && k != from && k != to ==> r.state[k] == l[k]
    ensures WellFormed(l) ==> WellFormed(r.state)
  {
    if from !in l || to !in l then
      Outcome(AccountNotFound, l)
    else if amount <= 0.0 then
      Outcome(InvalidAmount, l)
    else if amount > l[from].balance then
      Outcome(InsufficientFunds, l)
    else
      var payer := l[from];
      var debited := l[from := Debit(payer, l[to].number, amount, sent)];
      Outcome(Done, debited[to := Credit(debited[to], payer.number, amount, received)])
  }

  /** A transfer between two different accounts moves `amount` from one to
      the other, so their total is unchanged; each side gains one record that
      names the other's number, and the payer stays non-negative. */
  lemma TransferBetweenTwo(l: Ledger, from: string, to: string, amount: real, sent: Instant, received: Instant)
    requires from in l && to in l && from != to
    requires Transfer(l, from, to, amount, sent, received).Ok()
    ensures var l' := Transfer(l, from, to, amount, sent, received).state;
      && l'[from].balance == l[from].balance - amount >= 0.0
      && l'[to].balance == l[to].balance + amount
      && l'[from].balance + l'[to].balance == l[from].balance + l[to].balance
      && l'[from].history == l[from].history + [Txn(Format(sent), TransferOut(l[to].number), -amount, l'[from].balance)]
      && l'[to].history == l[to].history + [Txn(Format(received), TransferIn(l[from].number), amount, l'[to].balance)]
  {
  }

  /** A transfer from an account to itself leaves its balance as it was and
      appends the outgoing record followed by the incoming one. */
  lemma TransferToSelf(l: Ledger, n: string, amount: real, sent: Instant, received: Instant)
    requires n in l && 0.0 < amount <= l[n].balance
    ensures var r := Transfer(l, n, n, amount, sent, received);
      && r.Ok()
      && r.state[n].balance == l[n].balance
      && r.state[n].history == l[n].history + [
           Txn(Format(sent), TransferOut(l[n].number), -amount, l[n].balance - amount),
           Txn(Format(received), TransferIn(l[n].number), amount, l[n].balance)]
  {
  }

  /** Opening an account with no money and deleting it gives back the ledger
      it was opened in; opening it with money makes deletion refuse. */
  lemma DeleteUndoesOpening(l: Ledger, n: string, holder: string, initial: real, now: Instant)
    requires n !in l && initial >= 0.0
    ensures initial == 0.0 ==> DeleteAccount(l[n := NewAccount(n, holder, initial, now)], n) == Outcome(Done, l)
    ensures initial > 0.0 ==> DeleteAccount(l[n := NewAccount(n, holder, initial, now)], n).status == PositiveBalance
  {
    var withNew := l[n := NewAccount(n, holder, initial, now)];
    assert withNew - {n} == l;
  }

  /** The `accounts` part of the document `save_data` writes: one record
      per entry, under the same key. */
  function SaveData(l: Ledger): (d: Records)
    ensures d.Keys == l.Keys
    ensures forall k :: k in d ==> d[k].accountNumber == l[k].number && d[k].balance == l[k].balance
    ensures forall k :: k in d ==> d[k].transactionHistory == l[k].history
    ensures forall k :: k in d ==>
      d[k].accountHolder == l[k].holder && Parse(d[k].createdAt) == l[k].createdAt.(micro := 0)
  {
    map k | k in l :: ToRecord(l[k])
  }

  /** The loop of `load_data`: every stored record is rebuilt with
      `from_dict` and stored under its key in the ledger being loaded into;
      entries already there under other keys stay. */
  function LoadData(l: Ledger, d: Records, now: Instant): (l': Ledger)
    ensures l'.Keys == l.Keys + d.Keys
    ensures forall k :: k in d ==> l'[k].number == d[k].accountNumber && l'[k].history == d[k].transactionHistory
    ensures forall k :: k in d ==>
      l'[k].holder == d[k].accountHolder && l'[k].balance == d[k].balance && l'[k].createdAt == Parse(d[k].createdAt)
    ensures forall k :: k in l && k !in d ==> l'[k] == l[k]
  {
    l + map k | k in d :: FromRecord(d[k], now)
  }

  /** Saving a ledger and loading the document into an empty ledger gives
      back the same keys and, under each, the same account up to the
      sub-second part of its creation time. Saving the reloaded ledger writes
      the same document again, and a well-formed ledger reloads well-formed. */
  lemma SaveLoadRoundTrip(l: Ledger, now: Instant)
    ensures LoadData(map[], SaveData(l), now).Keys == l.Keys
    ensures forall k :: k in l ==>
      LoadData(map[], SaveData(l), now)[k] == l[k].(createdAt := l[k].createdAt.(micro := 0))
    ensures SaveData(LoadData(map[], SaveData(l), now)) == SaveData(l)
    ensures WellFormed(l) ==> WellFormed(LoadData(map[], SaveData(l), now))
  {
  }

  /** A session driven through the account and ledger operations: open
      "Alice" with 1000, deposit 500, try to withdraw 2000, then pay 1000 to
      a newly opened "Bob". */
  lemma AliceAndBobSession(t0: Instant, t1: Instant, t2: Instant, t3: Instant, t4: Instant, t5: Instant)
    ensures var alice := NewAccount(Seed, "Alice", 1000.0, t0);
      var deposited := Deposit(alice, 500.0, t1);
      var refused := Withdraw(deposited.state, 2000.0, t2);
      var bob := NewAccount("100002", "Bob", 0.0, t3);
      var paid := Transfer(map[Seed := refused.state, "100002" := bob], Seed, "100002", 1000.0, t4, t5);
      && deposited.Ok() && deposited.state.balance == 1500.0 && |deposited.state.history| == 2
      && refused.status == InsufficientFunds && refused.state == deposited.state
      && paid.Ok()
      && paid.state[Seed].balance == 500.0 && |paid.state[Seed].history| == 3
      && paid.state["100002"].balance == 1000.0 && |paid.state["100002"].history| == 2
      && Last(paid.state["100002"].history).kind == TransferIn(Seed)
  {
  }
}

=== FILE: results.dfy ===
/** Result shapes shared by the account and the ledger operations.

    Main.py's operations report success with a boolean (or return `None`)
    and mutate their receiver in place. Here each operation that can be
    refused returns an `Outcome`: the status says whether the call went through and, if not,
    which guard refused it; `state` is the receiver's value after the call,
    which is the unchanged input whenever the status is not `Done`. */
module Results {

  /** An optional value, in place of Python's `None`. */
  datatype Option<+T> = None | Some(value: T)

  /** Why an operation was refused, or `Done` when it went through. */
  datatype Status =
    | Done
    | InvalidAmount            // amount <= 0 where a positive amount is needed
    | InsufficientFunds        // amount above the paying account's balance
    | AccountNotFound          // an account number that is not in the ledger
    | PositiveBalance          // deletion of an account whose balance is above zero
    | NegativeInitialDeposit   // account opening with a negative first deposit
    | MalformedAccountNumber   // a stored key that is not a decimal numeral

  /** The status of a call together with the state it leaves behind. */
  datatype Outcome<+T> = Outcome(status: Status, state: T) {

    /** True when the call went through. */
    predicate Ok() {
      status == Done
    }
  }
}
